=== FILE: README.md ===
# ABIF directory entries, verified

A Dafny model of the part of the `ab1-file-writer` Python package that
writes directory entries of Applied Biosystems ABIF ("AB1") trace files.
A directory entry is a 28-byte record:

- the tag name (4 bytes);
- the tag number (u32);
- the element type code (u16);
- the element size (u16);
- the element count (u32);
- the payload size (u32);
- a data/offset field (u32);
- a reserved field (u32, zero).

The payload size is `element_size * num_elements`. It is computed by
`Directory.DataSize` and never stored. A payload of at most four bytes is
stored inline in the data/offset field. A larger payload is replaced by the
offset the caller supplies.

The model has four modules:

- `Utils` (`utils.dfy`): the byte encoders.
  - `to_bytes` raises `OverflowError` on negative or too-large values. It
    does not truncate, so it is modelled as an `Err(Overflow)` result.
  - `str.encode()` is UTF-8 over Dafny's characters, which are Unicode
    scalar values (see "## Left out" for lone surrogates).
  - `short_list` concatenates two-byte shorts.
  - `pascal_string` is a one-byte length followed by the encoded string.
- `Streams` (`stream.dfy`): the seekable binary stream, as a class holding
  a byte sequence and a cursor. `Write` overwrites at the cursor and grows
  the stream when it runs past the end. The two seeks are `SeekCurrent`
  and `SeekEnd`.
- `Directories` (`directory.dfy`): the `Directory` record, the byte layout
  of a record (`Header`, `DataField`, `Record`) and the serializer.
  - `WriteTo` is a method on a `Stream`. It is proved to leave exactly the
    outcome, contents and cursor given by the function `Serialized` of the
    contents and cursor it started from.
  - The layout properties are proved as lemmas about `Serialized` and
    `Record`.
- `Factories` (`factories.dfy`): the ten static constructors, one per ABIF
  tag, with the relation between `data_size` and the payload proved for
  each.

Three points of the code that the model states outright:

- Pascal-string prefix: `pascal_string` writes the character count
  (`len(value)`, utils.py:40), so for non-ASCII text the prefix is smaller
  than the byte count of the encoding that follows. The string reads back
  from its Pascal encoding exactly when it is ASCII (`PascalRoundTrip`).
- Partial writes: `write_to` encodes each field just before writing it,
  so an overflow in a later field leaves the earlier fields written.
  `HeaderWritten` models what remains, and `SerializedOverflow` states it.
- Offset units: the docstring of `write_to` calls `offset` "in bits"
  (directory.py:31), but the value is written verbatim. The model treats
  it as the integer it is.

Two behaviours of the code are modelled as they are, without a
precondition to rule them out:

- An inline payload longer than four bytes is written in full. The record
  then runs past its 28-byte slot (`BaseOrderOverrun`).
- When `write_to` is called with the cursor before the end of the stream,
  the final `seek(0, SEEK_END)` moves the reserved field to the end of the
  stream rather than after the entry (`SerializedInlineBranch`).

## Model

| member | source | states |
|---|---|---|
| Directories.Directory.DataSize | directory.py:19-25 | `data_size`: for one-byte elements it is the element count, for a single element the element size |
| Directories.DataSizeElements | directory.py:19-25 | the payload size divides into exactly `num_elements` elements of `element_size` bytes |
| Utils.ToBytes | utils.py:10 | `n.to_bytes(width, "big")` succeeds exactly when 0 <= n < 256^width; the result has `width` bytes and decodes big-endian to `n`; otherwise the error is an overflow, never a truncated value |
| Utils.IntTo16Bit | utils.py:4-10 | succeeds exactly for 0 <= n < 2^16; two bytes, high byte first, that decode back to `n`; overflow otherwise |
| Utils.IntTo32Bit | utils.py:13-19 | succeeds exactly for 0 <= n < 2^32; four bytes that decode back to `n`; overflow otherwise |
| Utils.BigEndianRoundTrip | utils.py:10 | decoding the big-endian encoding of any `n < 256^width` gives back `n` |
| Utils.BigEndianOfValue | utils.py:10 | every byte string is the big-endian encoding of the value it decodes to, so the encoding is unique |
| Utils.ShortList | utils.py:22-28 | succeeds exactly when every value fits in 16 bits; two bytes per value; overflow otherwise |
| Utils.ShortListLayout | utils.py:28 | bytes `2i` and `2i+1` decode to the `i`-th value, so order is kept |
| Utils.ShortListAppend | utils.py:28 | `short_list(a + b)` is `short_list(a) + short_list(b)` when both succeed, and an overflow when either fails |
| Utils.ShortListRoundTrip | utils.py:28 | decoding the shorts back gives the original list |
| Utils.Utf8 | utils.py:41 | `str.encode()` never gives fewer bytes than characters |
| Utils.Utf8Length | utils.py:41 | the encoding has as many bytes as characters exactly when the string is ASCII |
| Utils.Utf8Append | utils.py:41 | encoding distributes over concatenation |
| Utils.AsciiRoundTrip | utils.py:41 | an ASCII string decodes back from its encoding |
| Utils.PascalString | utils.py:31-42 | succeeds exactly when the string has at most 255 characters (the one-byte prefix overflows otherwise; the warning has no effect); the prefix byte is the character count, and the bytes after it are exactly the encoded string; the length is one plus the character count exactly when the string is ASCII |
| Utils.PascalRoundTrip | utils.py:40-42 | reading the prefix byte and then that many bytes gives back the encoded string and leaves what follows, exactly when the string is ASCII |
| Streams.Stream.Write | directory.py:36 | `ab1.write(b)` overwrites at the cursor, growing the stream past its end, and moves the cursor past `b` |
| Streams.Stream.SeekCurrent | directory.py:48 | `seek(delta, SEEK_CUR)` moves the cursor by `delta` and changes no byte |
| Streams.Stream.SeekEnd | directory.py:50 | `seek(0, SEEK_END)` puts the cursor at the end of the stream and changes no byte |
| Streams.OverwriteSlices | directory.py:36 | a write keeps the bytes before it, puts its bytes at the cursor, and keeps the bytes after it |
| Streams.OverwriteAtEnd | directory.py:54 | a write at the end of the stream appends |
| Streams.OverwriteShadow | directory.py:47-49 | a second write at the same position, no longer than the first, replaces the start of the first and keeps the rest of it |
| Streams.OverwriteConsecutive | directory.py:36-41 | two writes one after the other are one write of their concatenation |
| Directories.HeaderRoundTrip | directory.py:36-41 | bytes 0-20 of a record with an ASCII four-character tag decode to the tag, tag number, type code, element size, element count and `element_size * num_elements`, at widths 4, 4, 2, 2, 4 and 4 |
| Directories.FieldSlices | directory.py:36-41 | each header field sits at its fixed offset in the record |
| Directories.RecordLayout | directory.py:43-54 | a record is 28 bytes unless an inline payload is longer than four bytes; for a payload over four bytes, bytes 20-24 decode to the offset; for an inline payload of at most four bytes they are the payload padded with zeros; the last four bytes are zero |
| Directories.WellFormedRecord | directory.py:43-54 | an entry whose payload has its declared size fills exactly one 28-byte slot |
| Directories.InlineIgnoresOffset | directory.py:46-50 | an inline record does not depend on the offset argument |
| Directories.HeaderWritten | directory.py:36-41 | the bytes written before an overflow always start with the encoded tag and are at most 16 bytes longer; exactly 16 bytes longer when no field overflows |
| Directories.HeaderWrittenComplete | directory.py:36-41 | without an overflow the six writes produce the whole header |
| Directories.WriteHeader | directory.py:36-41 | succeeds exactly when every numeric header field fits its width, and leaves the header bytes written up to the first overflow at the cursor |
| Directories.WriteEncoded | directory.py:37-41 | one header write writes the encoding when it exists and nothing when it overflowed |
| Directories.Serialized | directory.py:27-54 | a tag that is not four characters is rejected with the stream unchanged; an overflow is reported exactly when a header field, or the offset of a payload over four bytes, does not fit its width |
| Directories.SerializedKeepsPrefix | directory.py:36-54 | the serializer never shrinks the stream, never touches the bytes before the cursor, and leaves the cursor inside the stream |
| Directories.SerializedOverflow | directory.py:36-45 | an overflow leaves exactly the header bytes written before it; the offset is only encoded once the whole header is out |
| Directories.SerializedAppends | directory.py:36-54 | from the end of the stream, a successful write appends exactly the record and leaves the cursor at the new end |
| Directories.SerializedOffsetBranch | directory.py:44-54 | with a payload over four bytes, the record is written over the stream at the cursor and the cursor ends right after it |
| Directories.SerializedInlineBranch | directory.py:46-54 | with a payload of at most four bytes: the header at the cursor, the payload right after it, the bytes before the cursor unchanged, the cursor at the end, the last four bytes zero, and the stream at least four bytes longer; from inside a stream long enough to hold the entry, exactly four bytes longer, the reserved field having gone to the end; for a payload of at most four bytes, the whole result is the old stream with the header and the zero-padded payload written over it at the cursor, every other byte (the stale bytes where the reserved field belonged included) unchanged, and four zeros appended |
| Directories.OffsetWrites | directory.py:44-54 | header, offset and reserved field written in turn are one write of the three |
| Directories.InlineWrites | directory.py:46-54 | the placeholder, the seek back, the payload write, the seek to the end and the reserved write leave the header and payload in place and four zeros at the end; at the end of the stream they append header, padded payload and zeros; for a payload of at most four bytes they equal one write of header and padded payload followed by four appended zeros |
| Directories.InlineClosedForm | directory.py:47-49 | the placeholder write, the seek back and a payload of at most four bytes together equal one write of the header and the zero-padded payload, wherever the cursor is |
| Directories.InlineOverwrite | directory.py:47-49 | writing the payload over a zero placeholder leaves the payload padded with zeros |
| Directories.WriteDataOffset | directory.py:43-50 | the data/offset section: the offset, or the payload over a zero placeholder with the cursor sent to the end; an offset that does not fit in 32 bits overflows with nothing written |
| Directories.SerializedPass | directory.py:52-54 | the reserved field is written where the data/offset section left the cursor |
| Directories.ZeroWord | directory.py:47 | `int_to_32_bit(0)` is four zero bytes |
| Directories.WriteTo | directory.py:27-54 | `write_to` returns the outcome and leaves the contents and cursor that `Serialized` gives for the contents and cursor it started from |
| Factories.Root | directory.py:56-64 | `root(n)`: the tag `tdir`, tag number 1, type code 1023, element size 28, `n` elements and empty data |
| Factories.RootRecord | directory.py:56-64 | for `n >= 1`, the root record is 28 bytes, announces `n` entries of 28 bytes each, and points at the offset it is given |
| Factories.RootEmpty | directory.py:44-64 | `root(0)` has payload size 0, so its record is written inline: 28 bytes with zeros in bytes 20-24 in place of the offset, for any offset |
| Factories.PeakLocations | directory.py:66-75 | `PLOC` succeeds exactly when every location fits in 16 bits; one two-byte short per location, payload size equal to its length, and the payload decodes back to the locations |
| Factories.BaseOrder | directory.py:77-89 | `FWO_` with tag number 1 always declares four one-byte elements (type code 2); an ASCII order reads back from the payload, whose length equals the declared size exactly when the order has four characters |
| Factories.DyeOrder | directory.py:78-80 | the order given is used as it is; without one the order is the four one-letter strings G, A, T, C, which join to the ASCII text `GATC` |
| Factories.Join | directory.py:88 | `"".join` of one-character strings has one character per part, in order |
| Factories.JoinAppend | directory.py:88 | `"".join` distributes over concatenation of the parts |
| Factories.DefaultBaseOrder | directory.py:78-89 | the default order is the bytes of `GATC`, a well-formed entry stored inline |
| Factories.BaseOrderOverrun | directory.py:77-89 | an ASCII order longer than four characters makes a record of 24 + its length bytes, more than 28 |
| Factories.SampleName | directory.py:91-101 | `SMPL` succeeds exactly for names of at most 255 characters; a Pascal-string entry whose element count is its byte length, the character-count prefix followed by the encoded name, and whose name reads back exactly when it is ASCII |
| Factories.Comment | directory.py:103-113 | `CMNT`, as for the sample name |
| Factories.MobilityFilename | directory.py:164-174 | `PDMF` with the given tag number, as for the sample name |
| Factories.PStringBranch | directory.py:91-101 | a Pascal-string entry holds an offset exactly when the string encodes to four bytes or more |
| Factories.ChannelData | directory.py:115-124 | `DATA` with the given tag number succeeds exactly when every sample fits in 16 bits; one short per sample, and the payload decodes back to the samples |
| Factories.Lane | directory.py:126-135 | `LANE` succeeds exactly when the lane number fits in 16 bits; tag number 1, type code 4, one element of two bytes; a two-byte payload that decodes to the lane number, payload size 2 |
| Factories.LaneRecord | directory.py:126-135 | the lane record is 28 bytes and holds the lane number inline in bytes 20-22, followed by two zeros, whatever the offset |
| Factories.BaseCalls | directory.py:137-146 | `PBAS` with the given tag number and type code 2 declares one one-byte element per character; the payload has the declared size, and reads back as the sequence, exactly when the sequence is ASCII |
| Factories.DyeSignalStrength | directory.py:148-162 | `S/N%` with tag number 1 succeeds exactly when all four strengths fit in 16 bits; eight bytes, so the record holds an offset, and the payload decodes to the four strengths in order |

## Left out

- Real `BinaryIO` handles, `os.SEEK_*` and file I/O: the stream is an
  in-memory byte sequence with a cursor.
- Seeking before the start or past the end of the stream: Python allows
  seeking past the end, but `write_to` never does it, so `SeekCurrent` may
  only reach positions inside the stream.
- The `print` warning in `pascal_string` (utils.py:37-38): a console side
  effect that does not change the result.
- Lone surrogates: a Python `str` can hold a lone surrogate code point,
  and then `str.encode()` raises `UnicodeEncodeError` (utils.py:41,
  directory.py:36, directory.py:88, directory.py:145). A Dafny `char` is a
  Unicode scalar value and cannot hold one, so that error path is not
  modelled.
- Decoding non-ASCII UTF-8: the round trips are proved for ASCII strings;
  for other strings the model shows where the byte count and the
  character count differ, and does not decode.
- `Directory` being a `NamedTuple` with a default `data=b""`: the Dafny
  datatype takes the payload explicitly.
- `bytearray` versus `bytes` results: both are byte sequences here.
- Assembly of a whole AB1 file (the file header, placing the directory
  table, choosing payload offsets): not part of these files.

=== FILE: directory.dfy ===
/** The ABIF directory entry: the record, the 28-byte layout it is written
    as, and the serializer that writes it to a stream. */
module Directories {
  import opened Utils
  import opened Streams

  const BYTES_PER_DIR: nat := 28
  const BYTES_PER_SHORT: nat := 2

  /** One directory entry. The payload size is derived from the element
      fields and never stored. */
  datatype Directory = Directory(
    tagName: string,
    tagNum: int,
    elementTypeCode: int,
    elementSize: int,
    numElements: int,
    data: Bytes)
  {
    /** Size of the payload in bytes: one byte per element for one-byte
        elements, the element size for a single element. */
    function DataSize(): (r: int)
      ensures elementSize == 1 ==> r == numElements
      ensures numElements == 1 ==> r == elementSize
    {
      elementSize * numElements
    }
  }

  /** The payload size splits into exactly `numElements` elements of
      `elementSize` bytes each. */
  lemma DataSizeElements(d: Directory)
    requires d.elementSize != 0
    ensures d.DataSize() % d.elementSize == 0 && d.DataSize() / d.elementSize == d.numElements
  {
    ExactDivision(d.elementSize, d.numElements);
  }

  /** Euclidean division of `a * n` by `a` is exact and gives back `n`. */
  lemma ExactDivision(a: int, n: int)
    requires a != 0
    ensures (a * n) % a == 0 && (a * n) / a == n
  {
    var q, m := (a * n) / a, (a * n) % a;
    assert a * n == a * q + m && 0 <= m;
    var k := n - q;
    assert m == a * k;
    var b := if a < 0 then -a else a;
    assert m < b;
    if k != 0 {
      var j := if k < 0 then -k else k;
      AtLeastFactor(b, j);
      assert false;
    }
  }

  lemma {:induction false} AtLeastFactor(b: int, j: int)
    requires b > 0 && j > 0
    ensures b * j >= b
  {
    if j > 1 {
      AtLeastFactor(b, j - 1);
      assert b * j == b * (j - 1) + b;
    }
  }

  /** Why `write_to` stops: the ValueError it raises itself for a tag name
      that is not four characters long, or an error from an encoder. */
  datatype WriteError = BadTagName | Encoding(cause: Error)

  datatype Outcome = Pass | Fail(error: WriteError)

  function Zeros(n: nat): (r: Bytes)
    ensures |r| == n && forall i :: 0 <= i < n ==> r[i] == 0
  {
    seq(n, _ => 0)
  }

  // -- The record layout ----------------------------------------------------

  /** The five numeric header fields fit their widths. */
  predicate HeaderFits(d: Directory) {
    && FitsU32(d.tagNum)
    && FitsU16(d.elementTypeCode)
    && FitsU16(d.elementSize)
    && FitsU32(d.numElements)
    && FitsU32(d.DataSize())
  }

  /** Nothing the serializer encodes overflows: the header fields, and the
      offset when it is written, which is only for payloads over 4 bytes. */
  predicate Encodable(d: Directory, offset: int) {
    HeaderFits(d) && (d.DataSize() > 4 ==> FitsU32(offset))
  }

  /** Tag name, tag number (u32), element type code (u16), element size
      (u16), element count (u32) and payload size (u32), big-endian. */
  function Header(d: Directory): (h: Bytes)
    requires HeaderFits(d)
    ensures |h| == |Utf8(d.tagName)| + 16
  {
    Utf8(d.tagName)
    + BigEndian(d.tagNum, 4)
    + BigEndian(d.elementTypeCode, 2)
    + BigEndian(d.elementSize, 2)
    + BigEndian(d.numElements, 4)
    + BigEndian(d.DataSize(), 4)
  }

  /** What the inline branch leaves in the data/offset field: the payload,
      zero-padded to four bytes; a longer payload runs on past the field. */
  function InlineData(data: Bytes): (r: Bytes)
    ensures |r| == if |data| <= 4 then 4 else |data|
    ensures r[..|data|] == data
    ensures forall i :: |data| <= i < |r| ==> r[i] == 0
  {
    if |data| <= 4 then data + Zeros(4 - |data|) else data
  }

  /** The data/offset field: the caller's offset for a payload over four
      bytes, the payload itself otherwise. */
  function DataField(d: Directory, offset: int): (r: Bytes)
    requires Encodable(d, offset)
  {
    if d.DataSize() > 4 then BigEndian(offset, 4) else InlineData(d.data)
  }

  /** The bytes of one directory entry: header, data/offset field and the
      zero reserved field (the data handle). */
  function Record(d: Directory, offset: int): (r: Bytes)
    requires Encodable(d, offset)
  {
    Header(d) + DataField(d, offset) + Zeros(4)
  }

  /** The values a reader finds in the first 20 bytes of an entry. */
  datatype HeaderView = HeaderView(
    tagName: string,
    tagNum: nat,
    elementTypeCode: nat,
    elementSize: nat,
    numElements: nat,
    dataSize: nat)

  function DecodeHeader(b: Bytes): (v: HeaderView)
    requires |b| >= 20
    ensures FitsU32(v.tagNum) && FitsU16(v.elementTypeCode) && FitsU16(v.elementSize)
    ensures FitsU32(v.numElements) && FitsU32(v.dataSize)
  {
    Pow256Values();
    HeaderView(
      DecodeAscii(b[..4]),
      BigEndianValue(b[4..8]),
      BigEndianValue(b[8..10]),
      BigEndianValue(b[10..12]),
      BigEndianValue(b[12..16]),
      BigEndianValue(b[16..20]))
  }

  /** A well-formed tag: four characters, each encoded as one byte. */
  predicate AsciiTag(d: Directory) {
    |d.tagName| == 4 && IsAscii(d.tagName)
  }

  /** Decoding the first 20 bytes of a record gives back every header
      field, in order and at its width. */
  lemma HeaderRoundTrip(d: Directory, offset: int)
    requires Encodable(d, offset) && AsciiTag(d)
    ensures |Record(d, offset)| >= 28
    ensures DecodeHeader(Record(d, offset)) ==
            HeaderView(d.tagName, d.tagNum, d.elementTypeCode, d.elementSize, d.numElements, d.DataSize())
  {
    Utf8Length(d.tagName);
    AsciiRoundTrip(d.tagName);
    Pow256Values();
    FieldSlices(Utf8(d.tagName), BigEndian(d.tagNum, 4), BigEndian(d.elementTypeCode, 2),
                BigEndian(d.elementSize, 2), BigEndian(d.numElements, 4), BigEndian(d.DataSize(), 4),
                DataField(d, offset), Zeros(4));
    BigEndianRoundTrip(d.tagNum, 4);
    BigEndianRoundTrip(d.elementTypeCode, 2);
    BigEndianRoundTrip(d.elementSize, 2);
    BigEndianRoundTrip(d.numElements, 4);
    BigEndianRoundTrip(d.DataSize(), 4);
  }

  /** Where each header field sits in the concatenation that makes up a
      record. */
  lemma FieldSlices(t: Bytes, a: Bytes, b: Bytes, c: Bytes, e: Bytes, f: Bytes, g: Bytes, z: Bytes)
    requires |t| == 4 && |a| == 4 && |b| == 2 && |c| == 2 && |e| == 4 && |f| == 4
    ensures var r := t + a + b + c + e + f + g + z;
            && r[..4] == t && r[4..8] == a && r[8..10] == b && r[10..12] == c
            && r[12..16] == e && r[16..20] == f
  {
    var r := t + a + b + c + e + f + g + z;
    assert r[..20] == t + a + b + c + e + f;
    assert r[..4] == r[..20][..4];
    assert r[4..8] == r[..20][4..8];
    assert r[8..10] == r[..20][8..10];
    assert r[10..12] == r[..20][10..12];
    assert r[12..16] == r[..20][12..16];
    assert r[16..20] == r[..20][16..20];
  }

  /** Bytes 20 to 28: the offset or the inline payload, then four zeros. A
      record is exactly 28 bytes unless an inline payload is longer than
      four bytes and overruns the reserved field. */
  lemma RecordLayout(d: Directory, offset: int)
    requires Encodable(d, offset) && AsciiTag(d)
    ensures |Record(d, offset)| == BYTES_PER_DIR <==> d.DataSize() > 4 || |d.data| <= 4
    ensures d.DataSize() > 4 ==> BigEndianValue(Record(d, offset)[20..24]) == offset
    ensures d.DataSize() <= 4 && |d.data| <= 4 ==>
              Record(d, offset)[20..24] == d.data + Zeros(4 - |d.data|)
    ensures d.DataSize() <= 4 && |d.data| > 4 ==>
              Record(d, offset)[20..20 + |d.data|] == d.data
    ensures Record(d, offset)[|Record(d, offset)| - 4..] == Zeros(4)
  {
    Utf8Length(d.tagName);
    var r := Record(d, offset);
    assert |Header(d)| == 20;
    assert r[20..|r| - 4] == DataField(d, offset);
    if d.DataSize() > 4 {
      BigEndianRoundTrip(offset, 4);
      Pow256Values();
    }
  }

  /** An entry whose payload is exactly as long as its declared size. */
  predicate WellFormed(d: Directory) {
    AsciiTag(d) && |d.data| == d.DataSize()
  }

  /** A well-formed entry fills exactly one 28-byte directory slot: the
      offset for a payload over four bytes, the padded payload otherwise. */
  lemma WellFormedRecord(d: Directory, offset: int)
    requires WellFormed(d) && Encodable(d, offset)
    ensures |Record(d, offset)| == BYTES_PER_DIR
    ensures d.DataSize() > 4 ==> BigEndianValue(Record(d, offset)[20..24]) == offset
    ensures d.DataSize() <= 4 ==> Record(d, offset)[20..24] == d.data + Zeros(4 - |d.data|)
  {
    RecordLayout(d, offset);
  }

  /** An inline record does not depend on the offset argument. */
  lemma InlineIgnoresOffset(d: Directory, offset1: int, offset2: int)
    requires d.DataSize() <= 4 && HeaderFits(d)
    ensures Encodable(d, offset1) && Encodable(d, offset2)
    ensures Record(d, offset1) == Record(d, offset2)
  {
  }

  // -- Partial writes ---------------------------------------------------------

  /** The header bytes `write_to` gets out: each field is encoded just
      before its write, so the first one that overflows stops it with the
      earlier ones already written; with no overflow, all six. */
  function HeaderWritten(d: Directory): (w: Bytes)
    ensures var t := Utf8(d.tagName);
            && |t| <= |w| <= |t| + 16
            && w[..|t|] == t
            && (|w| == |t| + 16 <==> HeaderFits(d))
  {
    var t := Utf8(d.tagName);
    match IntTo32Bit(d.tagNum)
    case Err(_) => t
    case Ok(a) =>
      match IntTo16Bit(d.elementTypeCode)
      case Err(_) => t + a
      case Ok(b) =>
        match IntTo16Bit(d.elementSize)
        case Err(_) => t + a + b
        case Ok(c) =>
          match IntTo32Bit(d.numElements)
          case Err(_) => t + a + b + c
          case Ok(e) =>
            match IntTo32Bit(d.DataSize())
            case Err(_) => t + a + b + c + e
            case Ok(f) => t + a + b + c + e + f
  }

  /** Without an overflow the whole header is written. */
  lemma HeaderWrittenComplete(d: Directory)
    requires HeaderFits(d)
    ensures HeaderWritten(d) == Header(d)
  {
    BigEndianOfValue(IntTo32Bit(d.tagNum).value);
    BigEndianOfValue(IntTo16Bit(d.elementTypeCode).value);
    BigEndianOfValue(IntTo16Bit(d.elementSize).value);
    BigEndianOfValue(IntTo32Bit(d.numElements).value);
    BigEndianOfValue(IntTo32Bit(d.DataSize()).value);
  }

  /** Writes the six header fields at the cursor, one write each, stopping
      at the first encoding that overflows. */
  method WriteHeader(d: Directory, ab1: Stream) returns (ok: bool)
    requires ab1.Valid()
    modifies ab1
    ensures ab1.Valid()
    ensures ok <==> HeaderFits(d)
    ensures ab1.bytes == Overwrite(old(ab1.bytes), old(ab1.cursor), HeaderWritten(d))
    ensures ab1.cursor == old(ab1.cursor) + |HeaderWritten(d)|
  {
    ghost var s0, p := ab1.bytes, ab1.cursor;
    var tag := Utf8(d.tagName);
    ab1.Write(tag);
    ghost var w := tag;
    ok, w := WriteEncoded(ab1, IntTo32Bit(d.tagNum), s0, p, w);
    if !ok { return; }
    ok, w := WriteEncoded(ab1, IntTo16Bit(d.elementTypeCode), s0, p, w);
    if !ok { return; }
    ok, w := WriteEncoded(ab1, IntTo16Bit(d.elementSize), s0, p, w);
    if !ok { return; }
    ok, w := WriteEncoded(ab1, IntTo32Bit(d.numElements), s0, p, w);
    if !ok { return; }
    ok, w := WriteEncoded(ab1, IntTo32Bit(d.DataSize()), s0, p, w);
  }

  /** One header write, `ab1.write(enc)`, after `written` went out at
      position `p` of the original contents `s0`. Computing `enc` may have
      raised OverflowError, in which case nothing is written. */
  method WriteEncoded(ab1: Stream, enc: Result<Bytes>, ghost s0: Bytes, ghost p: nat, ghost written: Bytes)
    returns (ok: bool, ghost written': Bytes)
    requires ab1.Valid() && p <= |s0|
    requires ab1.bytes == Overwrite(s0, p, written) && ab1.cursor == p + |written|
    modifies ab1
    ensures ab1.Valid()
    ensures ok == enc.Ok?
    ensures written' == if ok then written + enc.value else written
    ensures ab1.bytes == Overwrite(s0, p, written') && ab1.cursor == p + |written'|
  {
    if enc.Err? {
      return false, written;
    }
    OverwriteConsecutive(s0, p, written, enc.value);
    ab1.Write(enc.value);
    return true, written + enc.value;
  }

  // -- The serializer ---------------------------------------------------------

  /** The outcome of `write_to` and the stream contents and cursor it leaves
      behind, from the contents `s` and cursor `c` it starts from, one write
      or seek at a time. */
  function Serialized(d: Directory, offset: int, s: Bytes, c: nat): (r: (Outcome, Bytes, nat))
    requires c <= |s|
    ensures r.0 == Fail(BadTagName) <==> |d.tagName| != 4
    ensures r.0 == Fail(Encoding(Overflow)) <==> |d.tagName| == 4 && !Encodable(d, offset)
    ensures r.0 == Fail(BadTagName) ==> r.1 == s && r.2 == c
  {
    if |d.tagName| != 4 then (Fail(BadTagName), s, c)
    else if !HeaderFits(d) then
      var w := HeaderWritten(d);
      (Fail(Encoding(Overflow)), Overwrite(s, c, w), c + |w|)
    else if d.DataSize() > 4 && !FitsU32(offset) then
      (Fail(Encoding(Overflow)), Overwrite(s, c, Header(d)), c + |Header(d)|)
    else
      var field := DataOffsetField(d, offset, Overwrite(s, c, Header(d)), c + |Header(d)|);
      (Pass, Overwrite(field.0, field.1, Zeros(4)), field.1 + 4)
  }

  /** The data/offset section from contents `s` and cursor `c`: the offset
      is written at the cursor; or a zero placeholder is, the payload is
      written over it, and the cursor moves to the end of the stream. */
  function DataOffsetField(d: Directory, offset: int, s: Bytes, c: nat): (r: (Bytes, nat))
    requires c <= |s| && (d.DataSize() > 4 ==> FitsU32(offset))
    ensures r.1 <= |r.0|
  {
    if d.DataSize() > 4 then
      (Overwrite(s, c, BigEndian(offset, 4)), c + 4)
    else
      var placeholder := Overwrite(s, c, Zeros(4));
      var f := Overwrite(placeholder, c, d.data);
      (f, |f|)
  }

  /** The serializer never shrinks the stream, leaves the bytes before the
      cursor alone, and leaves the cursor inside the stream. */
  lemma SerializedKeepsPrefix(d: Directory, offset: int, s: Bytes, c: nat)
    requires c <= |s|
    ensures var (_, f, cur) := Serialized(d, offset, s, c);
            |s| <= |f| && cur <= |f| && f[..c] == s[..c]
  {
    if |d.tagName| != 4 {
    } else if !HeaderFits(d) {
      OverwriteSlices(s, c, HeaderWritten(d));
    } else if d.DataSize() > 4 && !FitsU32(offset) {
      OverwriteSlices(s, c, Header(d));
    } else if d.DataSize() > 4 {
      SerializedOffsetBranch(d, offset, s, c);
      OverwriteSlices(s, c, Record(d, offset));
    } else {
      SerializedInlineBranch(d, offset, s, c);
    }
  }

  /** Serializing at the end of the stream appends the record. */
  lemma SerializedAppends(d: Directory, offset: int, s: Bytes)
    requires |d.tagName| == 4 && Encodable(d, offset)
    ensures Serialized(d, offset, s, |s|) == (Pass, s + Record(d, offset), |s| + |Record(d, offset)|)
  {
    if d.DataSize() > 4 {
      SerializedOffsetBranch(d, offset, s, |s|);
      OverwriteAtEnd(s, Record(d, offset));
    } else {
      var h := Header(d);
      var afterHeader := Overwrite(s, |s|, h);
      var f := Overwrite(Overwrite(afterHeader, |s| + |h|, Zeros(4)), |s| + |h|, d.data);
      assert DataOffsetField(d, offset, afterHeader, |s| + |h|) == (f, |f|);
      SerializedPass(d, offset, s, |s|, f, |f|);
      InlineWrites(s, |s|, h, d.data);
      assert Record(d, offset) == h + InlineData(d.data) + Zeros(4);
    }
  }

  /** With a payload over four bytes the entry is written over the stream
      at the cursor, whatever lies there. */
  lemma SerializedOffsetBranch(d: Directory, offset: int, s: Bytes, c: nat)
    requires c <= |s| && |d.tagName| == 4 && Encodable(d, offset) && d.DataSize() > 4
    ensures Serialized(d, offset, s, c) == (Pass, Overwrite(s, c, Record(d, offset)), c + |Record(d, offset)|)
  {
    var h, o := Header(d), BigEndian(offset, 4);
    var afterHeader := Overwrite(s, c, h);
    assert DataOffsetField(d, offset, afterHeader, c + |h|) == (Overwrite(afterHeader, c + |h|, o), c + |h| + 4);
    OffsetWrites(s, c, h, o);
  }

  /** With a payload of at most four bytes: the header at the cursor, the
      payload right after it, the cursor at the end of the stream and the
      reserved field the last four bytes. When the entry is written before
      the end of the stream, the reserved field therefore lands at the end,
      not after the entry. */
  lemma SerializedInlineBranch(d: Directory, offset: int, s: Bytes, c: nat)
    requires c <= |s| && |d.tagName| == 4 && Encodable(d, offset) && d.DataSize() <= 4
    ensures var (r, f, cur) := Serialized(d, offset, s, c);
            var h := Header(d);
            && r == Pass
            && |f| >= c + |h| + |d.data| + 4
            && f[..c] == s[..c]
            && f[c..c + |h|] == h
            && f[c + |h|..c + |h| + |d.data|] == d.data
            && f[|f| - 4..] == Zeros(4)
            && cur == |f|
            && |f| >= |s| + 4
            && (c + |h| + |d.data| + 4 <= |s| ==> |f| == |s| + 4)
    ensures |d.data| <= 4 ==>
              Serialized(d, offset, s, c).1 == Overwrite(s, c, Header(d) + InlineData(d.data)) + Zeros(4)
  {
    var h := Header(d);
    var afterHeader := Overwrite(s, c, h);
    var f := Overwrite(Overwrite(afterHeader, c + |h|, Zeros(4)), c + |h|, d.data);
    assert DataOffsetField(d, offset, afterHeader, c + |h|) == (f, |f|);
    assert Serialized(d, offset, s, c) == (Pass, Overwrite(f, |f|, Zeros(4)), |f| + 4);
    InlineWrites(s, c, h, d.data);
  }

  // -- Stream algebra of the two branches -------------------------------------

  /** Header, offset and reserved field written one after the other are
      one write of the three. */
  lemma OffsetWrites(s: Bytes, c: nat, h: Bytes, o: Bytes)
    requires c <= |s|
    ensures Overwrite(Overwrite(Overwrite(s, c, h), c + |h|, o), c + |h| + |o|, Zeros(4))
            == Overwrite(s, c, h + o + Zeros(4))
  {
    OverwriteConsecutive(s, c, h, o);
    OverwriteConsecutive(s, c, h + o, Zeros(4));
  }

  /** Header, zero placeholder, payload over the placeholder, then the
      reserved field at the end of the stream. */
  lemma InlineWrites(s: Bytes, c: nat, h: Bytes, data: Bytes)
    requires c <= |s|
    ensures var afterHeader := Overwrite(s, c, h);
            var f := Overwrite(Overwrite(afterHeader, c + |h|, Zeros(4)), c + |h|, data);
            var g := Overwrite(f, |f|, Zeros(4));
            && |g| == |f| + 4 >= c + |h| + |data| + 4
            && |g| >= |s| + 4
            && g[..c] == s[..c]
            && g[c..c + |h|] == h
            && g[c + |h|..c + |h| + |data|] == data
            && g[|g| - 4..] == Zeros(4)
            && (c + |h| + |data| + 4 <= |s| && |data| <= 4 ==> |g| == |s| + 4)
            && (c == |s| ==> g == s + (h + InlineData(data) + Zeros(4)))
            && (|data| <= 4 ==> g == Overwrite(s, c, h + InlineData(data)) + Zeros(4))
  {
    var afterHeader := Overwrite(s, c, h);
    var placeholder := Overwrite(afterHeader, c + |h|, Zeros(4));
    var f := Overwrite(placeholder, c + |h|, data);
    var g := f + Zeros(4);
    OverwriteAtEnd(f, Zeros(4));
    if |data| <= 4 {
      InlineClosedForm(s, c, h, data);
    }
    assert g[..|f|] == f;
    assert f[..c + |h|] == placeholder[..c + |h|] == afterHeader[..c + |h|];
    assert g[..c] == f[..c] == afterHeader[..c];
    assert g[c..c + |h|] == f[c..c + |h|] == afterHeader[c..c + |h|];
    assert g[c + |h|..c + |h| + |data|] == f[c + |h|..c + |h| + |data|];
    if c == |s| {
      OverwriteAtEnd(s, h);
      OverwriteAtEnd(afterHeader, Zeros(4));
      InlineOverwrite(afterHeader, data);
      assert g == afterHeader + InlineData(data) + Zeros(4);
    }
  }

  /** Everywhere in the stream, a short payload written over the zero
      placeholder after the header leaves the header and the zero-padded
      payload written in one go, and every other byte as it was. */
  lemma InlineClosedForm(s: Bytes, c: nat, h: Bytes, data: Bytes)
    requires c <= |s| && |data| <= 4
    ensures Overwrite(Overwrite(Overwrite(s, c, h), c + |h|, Zeros(4)), c + |h|, data)
            == Overwrite(s, c, h + InlineData(data))
  {
    var afterHeader := Overwrite(s, c, h);
    OverwriteShadow(afterHeader, c + |h|, Zeros(4), data);
    assert data + Zeros(4)[|data|..] == InlineData(data);
    OverwriteConsecutive(s, c, h, InlineData(data));
  }

  /** Writing the payload over a four-byte zero placeholder at the end of
      `prefix` leaves the zero-padded payload. */
  lemma InlineOverwrite(prefix: Bytes, data: Bytes)
    ensures Overwrite(prefix + Zeros(4), |prefix|, data) == prefix + InlineData(data)
  {
    var r := Overwrite(prefix + Zeros(4), |prefix|, data);
    var q := prefix + InlineData(data);
    assert |r| == |q|;
    forall i | 0 <= i < |r| ensures r[i] == q[i] {
      if i < |prefix| {
        assert r[i] == r[..|prefix|][i];
      } else if i < |prefix| + |data| {
        assert r[i] == r[|prefix|..|prefix| + |data|][i - |prefix|];
        assert q[i] == InlineData(data)[..|data|][i - |prefix|];
      } else {
        assert r[i] == r[|prefix| + |data|..][i - |prefix| - |data|];
      }
    }
  }

  /** `write_to`: rejects a tag that is not four characters with nothing
      written, writes the header, then either the caller's offset or the
      payload over a zero placeholder (seeking back over it and then to the
      end of the stream), and finally the zero reserved field. An overflow
      stops it with the fields before it already written. */
  method WriteTo(d: Directory, ab1: Stream, offset: int) returns (r: Outcome)
    requires ab1.Valid()
    modifies ab1
    ensures ab1.Valid()
    ensures (r, ab1.bytes, ab1.cursor) == Serialized(d, offset, old(ab1.bytes), old(ab1.cursor))
  {
    if |d.tagName| != 4 {
      return Fail(BadTagName);
    }
    ghost var s0, c0 := ab1.bytes, ab1.cursor;
    var ok := WriteHeader(d, ab1);
    if !ok {
      SerializedOverflow(d, offset, s0, c0);
      return Fail(Encoding(Overflow));
    }
    HeaderWrittenComplete(d);

    // The data/offset field: the offset, or the payload over a placeholder.
    ok := WriteDataOffset(d, ab1, offset);
    if !ok {
      SerializedOverflow(d, offset, s0, c0);
      return Fail(Encoding(Overflow));
    }
    SerializedPass(d, offset, s0, c0, ab1.bytes, ab1.cursor);

    // The reserved field, always zero, wherever the cursor now is.
    var reserved := IntTo32Bit(0);
    ZeroWord();
    ab1.Write(reserved.value);
    return Pass;
  }

  /** An overflow stops `write_to` after the header fields before it; the
      offset is only encoded once the whole header is out. */
  lemma SerializedOverflow(d: Directory, offset: int, s: Bytes, c: nat)
    requires c <= |s| && |d.tagName| == 4 && !Encodable(d, offset)
    ensures Serialized(d, offset, s, c) ==
            (Fail(Encoding(Overflow)), Overwrite(s, c, HeaderWritten(d)), c + |HeaderWritten(d)|)
  {
    if HeaderFits(d) {
      HeaderWrittenComplete(d);
    }
  }

  /** The last step of a successful `write_to`: the reserved field is
      written where the data/offset section left the cursor. */
  lemma SerializedPass(d: Directory, offset: int, s: Bytes, c: nat, afterField: Bytes, next: nat)
    requires c <= |s| && |d.tagName| == 4 && Encodable(d, offset)
    requires (afterField, next) == DataOffsetField(d, offset, Overwrite(s, c, Header(d)), c + |Header(d)|)
    ensures Serialized(d, offset, s, c) == (Pass, Overwrite(afterField, next, Zeros(4)), next + 4)
  {
  }

  /** The data/offset section of `write_to`: the offset when the payload
      is over four bytes (which overflows for an offset that does not fit
      in 32 bits, with nothing written), otherwise the payload over a zero
      placeholder, seeking back over the placeholder and then to the end. */
  method WriteDataOffset(d: Directory, ab1: Stream, offset: int) returns (ok: bool)
    requires ab1.Valid()
    modifies ab1
    ensures ab1.Valid()
    ensures ok <==> (d.DataSize() > 4 ==> FitsU32(offset))
    ensures ok ==> (ab1.bytes, ab1.cursor) == DataOffsetField(d, offset, old(ab1.bytes), old(ab1.cursor))
    ensures !ok ==> ab1.bytes == old(ab1.bytes) && ab1.cursor == old(ab1.cursor)
  {
    if d.DataSize() > 4 {
      var enc := IntTo32Bit(offset);
      if enc.Err? {
        return false;
      }
      BigEndianOfValue(enc.value);
      ab1.Write(enc.value);
    } else {
      var placeholder := IntTo32Bit(0);
      ZeroWord();
      ab1.Write(placeholder.value);
      ab1.SeekCurrent(-4);
      ab1.Write(d.data);
      ab1.SeekEnd();
    }
    return true;
  }

  /** The zero word the serializer writes as placeholder and reserved field. */
  lemma ZeroWord()
    ensures IntTo32Bit(0).Ok? && IntTo32Bit(0).value == Zeros(4)
  {
    var v := IntTo32Bit(0).value;
    BigEndianOfValue(v);
    assert BigEndian(0, 4) == Zeros(4);
  }
}

=== FILE: factories.dfy ===
/** The catalogue of directory entries: one constructor per ABIF tag, each
    fixing the tag, the element type code, the element size and the
    element count. */
module Factories {
  import opened Utils
  import opened Directories

  /** ABIF element type codes. */
  const CHAR_TYPE: int := 2
  const SHORT_TYPE: int := 4
  const PSTRING_TYPE: int := 18
  const DIRECTORY_TYPE: int := 1023

  /** `"".join(parts)`: joining one-character strings gives those
      characters in order. */
  function Join(parts: seq<string>): (s: string)
    ensures (forall i :: 0 <= i < |parts| ==> |parts[i]| == 1) ==>
              |s| == |parts| && forall i :: 0 <= i < |parts| ==> s[i] == parts[i][0]
  {
    if parts == [] then "" else parts[0] + Join(parts[1..])
  }

  /** Joining distributes over concatenation of the parts. */
  lemma {:induction false} JoinAppend(a: seq<string>, b: seq<string>)
    ensures Join(a + b) == Join(a) + Join(b)
  {
    if a != [] {
      assert (a + b)[0] == a[0] && (a + b)[1..] == a[1..] + b;
      JoinAppend(a[1..], b);
      assert Join(a + b) == a[0] + (Join(a[1..]) + Join(b));
    } else {
      assert a + b == b;
    }
  }

  /** The shape shared by the two-byte-integer entries. */
  predicate ShortsOf(d: Directory, values: seq<int>) {
    && d.elementTypeCode == SHORT_TYPE
    && d.elementSize == BYTES_PER_SHORT
    && d.numElements == |values|
    && WellFormed(d)
    && Shorts(d.data) == values
  }

  /** The shape shared by the Pascal-string entries: one-byte elements, as
      many as the encoded string has bytes, the character count first; the
      string reads back from the payload exactly when it is ASCII. */
  predicate PStringOf(d: Directory, value: string) {
    && d.elementTypeCode == PSTRING_TYPE
    && d.elementSize == 1
    && WellFormed(d)
    && |d.data| == 1 + |Utf8(value)|
    && d.data[0] == |value|
    && d.data[1..] == Utf8(value)
    && (ReadPascal(d.data) == Some((Utf8(value), [])) <==> IsAscii(value))
  }

  /** `root`: the entry pointing at the directory table itself; its payload
      lives elsewhere, so its data is empty. */
  function Root(numDirs: int): (d: Directory)
    ensures AsciiTag(d) && d.tagName == "tdir" && d.tagNum == 1 && d.elementTypeCode == DIRECTORY_TYPE
    ensures d.elementSize == BYTES_PER_DIR && d.numElements == numDirs && d.data == []
  {
    Directory("tdir", 1, DIRECTORY_TYPE, BYTES_PER_DIR, numDirs, [])
  }

  /** The root record announces `numDirs` entries of 28 bytes each and
      points at the offset it is given. */
  lemma RootRecord(numDirs: int, offset: int)
    requires 1 <= numDirs && FitsU32(BYTES_PER_DIR * numDirs) && FitsU32(offset)
    ensures Encodable(Root(numDirs), offset)
    ensures |Record(Root(numDirs), offset)| == BYTES_PER_DIR
    ensures var v := DecodeHeader(Record(Root(numDirs), offset));
            v.tagName == "tdir" && v.numElements == numDirs && v.elementSize == BYTES_PER_DIR
            && v.dataSize == BYTES_PER_DIR * numDirs
    ensures BigEndianValue(Record(Root(numDirs), offset)[20..24]) == offset
  {
    var d := Root(numDirs);
    HeaderRoundTrip(d, offset);
    RecordLayout(d, offset);
  }

  /** `root(0)` has a payload size of 0, so it is written inline: bytes 20
      to 24 are zeros and the offset it is given is dropped, whatever it is. */
  lemma RootEmpty(offset: int)
    ensures Encodable(Root(0), offset) && |Record(Root(0), offset)| == BYTES_PER_DIR
    ensures Record(Root(0), offset)[20..24] == Zeros(4)
  {
    var d := Root(0);
    assert d.DataSize() == 0;
    RecordLayout(d, offset);
    assert InlineData(d.data) == Zeros(4);
  }

  function ShortsEntry(tagName: string, tagNum: int, values: seq<int>): (r: Result<Directory>)
    requires |tagName| == 4 && IsAscii(tagName)
    ensures r.Ok? <==> forall i :: 0 <= i < |values| ==> FitsU16(values[i])
    ensures r.Ok? ==> ShortsOf(r.value, values) && r.value.tagName == tagName && r.value.tagNum == tagNum
    ensures r.Err? ==> r.error == Overflow
  {
    match ShortList(values)
    case Err(e) => Err(e)
    case Ok(data) =>
      ShortListRoundTrip(values);
      Ok(Directory(tagName, tagNum, SHORT_TYPE, BYTES_PER_SHORT, |values|, data))
  }

  /** `peak_locations`. */
  function PeakLocations(locations: seq<int>): (r: Result<Directory>)
    ensures r.Ok? <==> forall i :: 0 <= i < |locations| ==> FitsU16(locations[i])
    ensures r.Ok? ==> ShortsOf(r.value, locations) && r.value.tagName == "PLOC" && r.value.tagNum == 1
    ensures r.Err? ==> r.error == Overflow
  {
    ShortsEntry("PLOC", 1, locations)
  }

  /** `channel_data`. */
  function ChannelData(tagNumber: int, data: seq<int>): (r: Result<Directory>)
    ensures r.Ok? <==> forall i :: 0 <= i < |data| ==> FitsU16(data[i])
    ensures r.Ok? ==> ShortsOf(r.value, data) && r.value.tagName == "DATA" && r.value.tagNum == tagNumber
    ensures r.Err? ==> r.error == Overflow
  {
    ShortsEntry("DATA", tagNumber, data)
  }

  /** `dye_signal_strength`: four shorts, eight bytes, so the record holds
      an offset rather than the payload. */
  function DyeSignalStrength(strength1: int, strength2: int, strength3: int, strength4: int)
    : (r: Result<Directory>)
    ensures r.Ok? <==> FitsU16(strength1) && FitsU16(strength2) && FitsU16(strength3) && FitsU16(strength4)
    ensures r.Ok? ==> ShortsOf(r.value, [strength1, strength2, strength3, strength4])
                      && r.value.tagName == "S/N%" && r.value.tagNum == 1 && r.value.DataSize() == 8
    ensures r.Err? ==> r.error == Overflow
  {
    var values := [strength1, strength2, strength3, strength4];
    assert (forall i :: 0 <= i < 4 ==> FitsU16(values[i])) <==>
           FitsU16(values[0]) && FitsU16(values[1]) && FitsU16(values[2]) && FitsU16(values[3]);
    ShortsEntry("S/N%", 1, values)
  }

  /** `lane`: the lane number as one big-endian short, stored inline. */
  function Lane(laneNumber: int): (r: Result<Directory>)
    ensures r.Ok? <==> FitsU16(laneNumber)
    ensures r.Ok? ==> && r.value.tagName == "LANE" && r.value.tagNum == 1 && WellFormed(r.value)
                      && r.value.elementTypeCode == SHORT_TYPE && r.value.elementSize == BYTES_PER_SHORT
                      && r.value.numElements == 1
                      && r.value.DataSize() == 2 && BigEndianValue(r.value.data) == laneNumber
    ensures r.Err? ==> r.error == Overflow
  {
    Pow256Values();
    match ToBytes(laneNumber, 2)
    case Err(e) => Err(e)
    case Ok(data) => Ok(Directory("LANE", 1, SHORT_TYPE, BYTES_PER_SHORT, 1, data))
  }

  /** The lane record carries the lane number itself in bytes 20 to 22,
      whatever offset it is given. */
  lemma LaneRecord(laneNumber: int, offset: int)
    requires FitsU16(laneNumber)
    ensures Lane(laneNumber).Ok? && Encodable(Lane(laneNumber).value, offset)
    ensures var r := Record(Lane(laneNumber).value, offset);
            |r| == BYTES_PER_DIR && BigEndianValue(r[20..22]) == laneNumber && r[22..24] == [0, 0]
  {
    var d := Lane(laneNumber).value;
    WellFormedRecord(d, offset);
    var r := Record(d, offset);
    assert r[20..22] == r[20..24][..2] == d.data;
  }

  /** The dye order `base_order` writes: the one given, or G, A, T, C,
      which joins to the four ASCII letters "GATC". */
  function DyeOrder(order: Option<seq<string>>): (r: seq<string>)
    ensures order.Some? ==> r == order.value
    ensures order.None? ==> r == ["G", "A", "T", "C"] && Join(r) == "GATC" && IsAscii(Join(r))
  {
    if order.None? then ["G", "A", "T", "C"] else order.value
  }

  /** `base_order`: the dye order as text, always declared as four one-byte
      elements; it reads back from the payload, and the payload has the
      declared size exactly when it has four characters, when it is ASCII. */
  function BaseOrder(order: Option<seq<string>>): (d: Directory)
    ensures d.tagName == "FWO_" && d.tagNum == 1 && d.elementTypeCode == CHAR_TYPE
    ensures d.elementSize == 1 && d.numElements == 4
    ensures IsAscii(Join(DyeOrder(order))) ==>
              && DecodeAscii(d.data) == Join(DyeOrder(order))
              && (WellFormed(d) <==> |Join(DyeOrder(order))| == 4)
  {
    var text := Join(DyeOrder(order));
    var d := Directory("FWO_", 1, CHAR_TYPE, 1, 4, Utf8(text));
    Utf8Length(text);
    if IsAscii(text) then AsciiRoundTrip(text); d else d
  }

  /** The default dye order is the four ASCII bytes of "GATC", stored inline. */
  lemma DefaultBaseOrder(offset: int)
    ensures var d := BaseOrder(None);
            && WellFormed(d) && d.data == [71, 65, 84, 67]
            && Encodable(d, offset) && Record(d, offset)[20..24] == d.data
  {
    var d := BaseOrder(None);
    assert Join(["G", "A", "T", "C"]) == "GATC";
    Utf8Ascii("GATC");
    WellFormedRecord(d, offset);
  }

  /** A custom dye order longer than four characters still declares four
      one-byte elements, so it is written inline and runs past the 28-byte
      slot. */
  lemma BaseOrderOverrun(order: seq<string>, offset: int)
    requires IsAscii(Join(order)) && |Join(order)| > 4
    ensures var d := BaseOrder(Some(order));
            Encodable(d, offset) && |Record(d, offset)| == 24 + |Join(order)| > BYTES_PER_DIR
  {
    Utf8Length(Join(order));
    Utf8Ascii("FWO_");
  }

  function PStringEntry(tagName: string, tagNum: int, value: string): (r: Result<Directory>)
    requires |tagName| == 4 && IsAscii(tagName)
    ensures r.Ok? <==> |value| <= 255
    ensures r.Ok? ==> PStringOf(r.value, value) && r.value.tagName == tagName && r.value.tagNum == tagNum
    ensures r.Err? ==> r.error == Overflow
  {
    match PascalString(value)
    case Err(e) => Err(e)
    case Ok(p) =>
      PascalRoundTrip(value, []);
      assert p + [] == p;
      Ok(Directory(tagName, tagNum, PSTRING_TYPE, 1, |p|, p))
  }

  /** `sample_name`. */
  function SampleName(name: string): (r: Result<Directory>)
    ensures r.Ok? <==> |name| <= 255
    ensures r.Ok? ==> PStringOf(r.value, name) && r.value.tagName == "SMPL" && r.value.tagNum == 1
    ensures r.Err? ==> r.error == Overflow
  {
    PStringEntry("SMPL", 1, name)
  }

  /** `comment`. */
  function Comment(comment: string): (r: Result<Directory>)
    ensures r.Ok? <==> |comment| <= 255
    ensures r.Ok? ==> PStringOf(r.value, comment) && r.value.tagName == "CMNT" && r.value.tagNum == 1
    ensures r.Err? ==> r.error == Overflow
  {
    PStringEntry("CMNT", 1, comment)
  }

  /** `mobility_filename`. */
  function MobilityFilename(tagNumber: int, filename: string): (r: Result<Directory>)
    ensures r.Ok? <==> |filename| <= 255
    ensures r.Ok? ==> PStringOf(r.value, filename) && r.value.tagName == "PDMF" && r.value.tagNum == tagNumber
    ensures r.Err? ==> r.error == Overflow
  {
    PStringEntry("PDMF", tagNumber, filename)
  }

  /** A Pascal-string entry holds an offset once the string encodes to four
      bytes or more, and the payload itself otherwise. */
  lemma PStringBranch(d: Directory, value: string)
    requires PStringOf(d, value)
    ensures d.DataSize() > 4 <==> |Utf8(value)| >= 4
  {
  }

  /** `base_calls`: one element per character of the sequence; the payload
      has that many bytes, and reads back as the sequence, exactly when the
      sequence is ASCII. */
  function BaseCalls(tagNumber: int, fastaSequence: string): (d: Directory)
    ensures d.tagName == "PBAS" && d.tagNum == tagNumber && d.elementTypeCode == CHAR_TYPE
    ensures d.elementSize == 1 && d.numElements == |fastaSequence|
    ensures WellFormed(d) <==> IsAscii(fastaSequence)
    ensures IsAscii(fastaSequence) ==> DecodeAscii(d.data) == fastaSequence
  {
    var d := Directory("PBAS", tagNumber, CHAR_TYPE, 1, |fastaSequence|, Utf8(fastaSequence));
    Utf8Length(fastaSequence);
    if IsAscii(fastaSequence) then AsciiRoundTrip(fastaSequence); d else d
  }
}

=== FILE: stream.dfy ===
/** An in-memory stand-in for the seekable binary stream the serializer
    writes to: a byte sequence and a cursor. */
module Streams {
  import opened Utils

  /** The stream contents after writing `b` at position `pos`: the bytes
      under it are replaced and the stream grows if the write runs past
      its end. */
  function Overwrite(s: Bytes, pos: nat, b: Bytes): (r: Bytes)
    requires pos <= |s|
    ensures |r| == if pos + |b| > |s| then pos + |b| else |s|
  {
    s[..pos] + b + (if pos + |b| < |s| then s[pos + |b|..] else [])
  }

  /** A write keeps what lies before it, puts `b` at `pos` and keeps what
      lies after it. */
  lemma OverwriteSlices(s: Bytes, pos: nat, b: Bytes)
    requires pos <= |s|
    ensures Overwrite(s, pos, b)[..pos] == s[..pos]
    ensures Overwrite(s, pos, b)[pos..pos + |b|] == b
    ensures pos + |b| <= |s| ==> Overwrite(s, pos, b)[pos + |b|..] == s[pos + |b|..]
  {
  }

  /** At the end of the stream a write appends. */
  lemma OverwriteAtEnd(s: Bytes, b: Bytes)
    ensures Overwrite(s, |s|, b) == s + b
  {
  }

  /** Two consecutive writes are one write of their concatenation. */
  lemma OverwriteConsecutive(s: Bytes, pos: nat, a: Bytes, b: Bytes)
    requires pos <= |s|
    ensures Overwrite(Overwrite(s, pos, a), pos + |a|, b) == Overwrite(s, pos, a + b)
  {
    var r := Overwrite(Overwrite(s, pos, a), pos + |a|, b);
    var q := Overwrite(s, pos, a + b);
    assert |r| == |q|;
    forall i | 0 <= i < |r| ensures r[i] == q[i] {
      if i < pos {
        assert r[i] == r[..pos][i];
        assert q[i] == q[..pos][i];
      } else if i < pos + |a| {
        assert r[i] == Overwrite(s, pos, a)[i];
        assert r[i] == Overwrite(s, pos, a)[pos..pos + |a|][i - pos];
        assert q[i] == q[pos..pos + |a| + |b|][i - pos];
      } else if i < pos + |a| + |b| {
        assert r[i] == r[pos + |a|..pos + |a| + |b|][i - pos - |a|];
        assert q[i] == q[pos..pos + |a| + |b|][i - pos];
      } else {
        assert r[i] == r[pos + |a| + |b|..][i - pos - |a| - |b|];
        assert r[i] == Overwrite(s, pos, a)[pos + |a|..][i - pos - |a|];
        assert q[i] == q[pos + |a| + |b|..][i - pos - |a| - |b|];
      }
    }
  }

  /** A second write at the same position, no longer than the first,
      shadows the start of the first and leaves the rest of it. */
  lemma OverwriteShadow(s: Bytes, pos: nat, a: Bytes, b: Bytes)
    requires pos <= |s| && |b| <= |a|
    ensures Overwrite(Overwrite(s, pos, a), pos, b) == Overwrite(s, pos, b + a[|b|..])
  {
    var t := Overwrite(s, pos, a);
    var r := Overwrite(t, pos, b);
    var q := Overwrite(s, pos, b + a[|b|..]);
    assert |r| == |q|;
    forall i | 0 <= i < |r| ensures r[i] == q[i] {
      if i < pos {
        assert r[i] == r[..pos][i] == t[..pos][i];
        assert q[i] == q[..pos][i];
      } else if i < pos + |b| {
        assert r[i] == r[pos..pos + |b|][i - pos];
        assert q[i] == q[pos..pos + |a|][i - pos];
      } else if i < pos + |a| {
        assert r[i] == r[pos + |b|..][i - pos - |b|] == t[pos + |b|..][i - pos - |b|];
        assert t[i] == t[pos..pos + |a|][i - pos];
        assert q[i] == q[pos..pos + |a|][i - pos];
      } else {
        assert r[i] == r[pos + |b|..][i - pos - |b|] == t[pos + |b|..][i - pos - |b|];
        assert t[i] == t[pos + |a|..][i - pos - |a|];
        assert q[i] == q[pos + |a|..][i - pos - |a|];
      }
    }
  }

  class Stream {
    var bytes: Bytes
    var cursor: nat

    ghost predicate Valid()
      reads this
    {
      cursor <= |bytes|
    }

    /** A stream holding `initial`, positioned at `position`. */
    constructor (initial: Bytes, position: nat)
      requires position <= |initial|
      ensures Valid() && bytes == initial && cursor == position
    {
      bytes := initial;
      cursor := position;
    }

    /** `write(b)`: overwrites at the cursor and advances it past `b`. */
    method Write(b: Bytes)
      requires Valid()
      modifies this
      ensures Valid()
      ensures bytes == Overwrite(old(bytes), old(cursor), b)
      ensures cursor == old(cursor) + |b|
    {
      bytes := Overwrite(bytes, cursor, b);
      cursor := cursor + |b|;
    }

    /** `seek(delta, SEEK_CUR)`. */
    method SeekCurrent(delta: int)
      requires Valid() && 0 <= cursor + delta <= |bytes|
      modifies this
      ensures Valid() && bytes == old(bytes) && cursor == old(cursor) + delta
    {
      cursor := cursor + delta;
    }

    /** `seek(0, SEEK_END)`. */
    method SeekEnd()
      requires Valid()
      modifies this
      ensures Valid() && bytes == old(bytes) && cursor == |bytes|
    {
      cursor := |bytes|;
    }
  }
}

=== FILE: utils.dfy ===
/** Byte encoders of the ABIF writer: fixed-width big-endian integers,
    arrays of shorts and Pascal strings, together with the decoders they
    are proved against. */
module Utils {

  type byte = x: int | 0 <= x < 256
  type Bytes = seq<byte>

  /** The error the encoders raise: `int.to_bytes` raises OverflowError for
      a negative value or one that does not fit the width. */
  datatype Error = Overflow

  datatype Result<+T> = Ok(value: T) | Err(error: Error)

  datatype Option<+T> = None | Some(value: T)

  const MAX_U16: nat := 0x1_0000
  const MAX_U32: nat := 0x1_0000_0000

  predicate FitsU16(n: int) { 0 <= n < MAX_U16 }
  predicate FitsU32(n: int) { 0 <= n < MAX_U32 }

  function Pow256(width: nat): (p: nat)
    ensures p >= 1
  {
    if width == 0 then 1 else 256 * Pow256(width - 1)
  }

  lemma Pow256Values()
    ensures Pow256(1) == 256 && Pow256(2) == MAX_U16 && Pow256(4) == MAX_U32
  {
    assert Pow256(1) == 256 * Pow256(0);
    assert Pow256(2) == 256 * Pow256(1);
    assert Pow256(3) == 256 * Pow256(2);
    assert Pow256(4) == 256 * Pow256(3);
  }

  /** The `width` low-order base-256 digits of `n`, most significant first. */
  function BigEndian(n: nat, width: nat): (r: Bytes)
    ensures |r| == width
  {
    if width == 0 then [] else BigEndian(n / 256, width - 1) + [n % 256]
  }

  /** Reads a byte string as an unsigned big-endian number. */
  function BigEndianValue(b: Bytes): (v: nat)
    ensures v < Pow256(|b|)
  {
    if b == [] then 0 else BigEndianValue(b[..|b| - 1]) * 256 + b[|b| - 1]
  }

  lemma {:induction false} BigEndianRoundTrip(n: nat, width: nat)
    requires n < Pow256(width)
    ensures BigEndianValue(BigEndian(n, width)) == n
  {
    if width > 0 {
      var b := BigEndian(n, width);
      assert b[..|b| - 1] == BigEndian(n / 256, width - 1);
      BigEndianRoundTrip(n / 256, width - 1);
    }
  }

  /** Big-endian encoding is injective: every byte string is the encoding
      of the number it reads as. */
  lemma {:induction false} BigEndianOfValue(b: Bytes)
    ensures BigEndian(BigEndianValue(b), |b|) == b
  {
    if b != [] {
      var init := b[..|b| - 1];
      var v := BigEndianValue(b);
      assert v / 256 == BigEndianValue(init) && v % 256 == b[|b| - 1];
      BigEndianOfValue(init);
      assert b == init + [b[|b| - 1]];
    }
  }

  /** Python's `n.to_bytes(width, "big")`: the big-endian encoding, or
      OverflowError when `n` is negative or needs more than `width` bytes. */
  function ToBytes(n: int, width: nat): (r: Result<Bytes>)
    ensures r.Ok? <==> 0 <= n < Pow256(width)
    ensures r.Ok? ==> |r.value| == width && BigEndianValue(r.value) == n
    ensures r.Err? ==> r.error == Overflow
  {
    if 0 <= n < Pow256(width) then
      BigEndianRoundTrip(n, width);
      Ok(BigEndian(n, width))
    else
      Err(Overflow)
  }

  function IntTo16Bit(n: int): (r: Result<Bytes>)
    ensures r.Ok? <==> FitsU16(n)
    ensures r.Ok? ==> |r.value| == 2 && BigEndianValue(r.value) == n
    ensures r.Ok? ==> r.value == [n / 256, n % 256]
    ensures r.Err? ==> r.error == Overflow
  {
    Pow256Values();
    ToBytes(n, 2)
  }

  function IntTo32Bit(n: int): (r: Result<Bytes>)
    ensures r.Ok? <==> FitsU32(n)
    ensures r.Ok? ==> |r.value| == 4 && BigEndianValue(r.value) == n
    ensures r.Err? ==> r.error == Overflow
  {
    Pow256Values();
    ToBytes(n, 4)
  }

  /** Two big-endian bytes per value, in order; OverflowError as soon as
      one value does not fit in 16 bits. */
  function ShortList(values: seq<int>): (r: Result<Bytes>)
    ensures r.Ok? <==> forall i :: 0 <= i < |values| ==> FitsU16(values[i])
    ensures r.Ok? ==> |r.value| == 2 * |values|
    ensures r.Err? ==> r.error == Overflow
  {
    if values == [] then Ok([])
    else
      match IntTo16Bit(values[0])
      case Err(e) => Err(e)
      case Ok(head) =>
        match ShortList(values[1..])
        case Err(e) => Err(e)
        case Ok(tail) => Ok(head + tail)
  }

  /** Bytes `2 * i` and `2 * i + 1` are the big-endian encoding of the
      `i`-th value, so the order of the values is kept. */
  lemma {:induction false} ShortListLayout(values: seq<int>)
    requires ShortList(values).Ok?
    ensures forall i :: 0 <= i < |values| ==>
              BigEndianValue(ShortList(values).value[2 * i..2 * i + 2]) == values[i]
  {
    if values != [] {
      var head, tail := IntTo16Bit(values[0]).value, ShortList(values[1..]).value;
      ShortListLayout(values[1..]);
      assert ShortList(values).value == head + tail;
      assert (head + tail)[..2] == head;
      assert forall i :: 1 <= i < |values| ==>
        (head + tail)[2 * i..2 * i + 2] == tail[2 * (i - 1)..2 * (i - 1) + 2];
    }
  }

  lemma {:induction false} ShortListAppend(a: seq<int>, b: seq<int>)
    ensures ShortList(a + b) ==
            if ShortList(a).Ok? && ShortList(b).Ok?
            then Ok(ShortList(a).value + ShortList(b).value)
            else Err(Overflow)
  {
    if a == [] {
      assert a + b == b;
      if ShortList(b).Ok? {
        assert ShortList(a).value + ShortList(b).value == ShortList(b).value;
      }
    } else {
      assert (a + b)[0] == a[0] && (a + b)[1..] == a[1..] + b;
      ShortListAppend(a[1..], b);
      var h := IntTo16Bit(a[0]);
      if h.Ok? && ShortList(a[1..]).Ok? && ShortList(b).Ok? {
        var t, u := ShortList(a[1..]).value, ShortList(b).value;
        assert ShortList(a + b) == Ok(h.value + (t + u));
        assert ShortList(a).value == h.value + t;
        assert h.value + (t + u) == (h.value + t) + u;
      }
    }
  }

  /** A byte string decodes as a sequence of shorts, two bytes per value. */
  function Shorts(b: Bytes): (vs: seq<nat>)
    requires |b| % 2 == 0
    ensures |vs| == |b| / 2
    ensures forall i :: 0 <= i < |vs| ==> FitsU16(vs[i])
  {
    Pow256Values();
    if b == [] then [] else [BigEndianValue(b[..2])] + Shorts(b[2..])
  }

  lemma {:induction false} ShortListRoundTrip(values: seq<int>)
    requires ShortList(values).Ok?
    ensures Shorts(ShortList(values).value) == values
  {
    if values != [] {
      var r := ShortList(values).value;
      assert r == IntTo16Bit(values[0]).value + ShortList(values[1..]).value;
      assert r[2..] == ShortList(values[1..]).value;
      ShortListRoundTrip(values[1..]);
    }
  }

  // -- Strings --------------------------------------------------------------

  predicate IsAscii(s: string) {
    forall i :: 0 <= i < |s| ==> (s[i] as int) < 128
  }

  /** The UTF-8 encoding of one Unicode scalar value. */
  function EncodeChar(c: char): (r: Bytes)
    ensures 1 <= |r| <= 4
    ensures |r| == 1 <==> (c as int) < 128
    ensures (c as int) < 128 ==> r == [c as int]
  {
    var n := c as int;
    if n < 0x80 then [n]
    else if n < 0x800 then [0xC0 + n / 0x40, 0x80 + n % 0x40]
    else if n < 0x1_0000 then [0xE0 + n / 0x1000, 0x80 + (n / 0x40) % 0x40, 0x80 + n % 0x40]
    else [0xF0 + n / 0x4_0000, 0x80 + (n / 0x1000) % 0x40, 0x80 + (n / 0x40) % 0x40, 0x80 + n % 0x40]
  }

  /** Python's `str.encode()`, whose default codec is UTF-8. */
  function Utf8(s: string): (r: Bytes)
    ensures |r| >= |s|
  {
    if s == [] then [] else EncodeChar(s[0]) + Utf8(s[1..])
  }

  lemma {:induction false} Utf8Append(a: string, b: string)
    ensures Utf8(a + b) == Utf8(a) + Utf8(b)
  {
    if a != [] {
      assert (a + b)[1..] == a[1..] + b;
      Utf8Append(a[1..], b);
    } else {
      assert a + b == b;
    }
  }

  /** The byte count equals the character count exactly for ASCII text. */
  lemma {:induction false} Utf8Length(s: string)
    ensures |Utf8(s)| == |s| <==> IsAscii(s)
  {
    if s != [] {
      Utf8Length(s[1..]);
      assert IsAscii(s) <==> (s[0] as int) < 128 && IsAscii(s[1..]) by {
        assert forall i :: 1 <= i < |s| ==> s[i] == s[1..][i - 1];
      }
    }
  }

  /** ASCII text encodes to one byte per character, the character's code. */
  lemma {:induction false} Utf8Ascii(s: string)
    requires IsAscii(s)
    ensures |Utf8(s)| == |s|
    ensures forall i :: 0 <= i < |s| ==> Utf8(s)[i] == s[i] as int
  {
    if s != [] {
      assert IsAscii(s[1..]) by {
        assert forall i :: 1 <= i < |s| ==> s[i] == s[1..][i - 1];
      }
      Utf8Ascii(s[1..]);
      assert forall i :: 1 <= i < |s| ==> Utf8(s)[i] == Utf8(s[1..])[i - 1];
    }
  }

  /** Reads bytes back as characters, one character per byte. */
  function DecodeAscii(b: Bytes): (s: string)
    ensures |s| == |b|
  {
    seq(|b|, i requires 0 <= i < |b| => b[i] as char)
  }

  lemma AsciiRoundTrip(s: string)
    requires IsAscii(s)
    ensures DecodeAscii(Utf8(s)) == s
  {
    Utf8Ascii(s);
  }

  /** Python's `pascal_string`: a one-byte prefix holding the CHARACTER count,
      then the UTF-8 bytes. `len(value).to_bytes(1, "big")` raises
      OverflowError from 256 characters on; the console warning printed
      beyond 256 characters does not change the result. */
  function PascalString(value: string): (r: Result<Bytes>)
    ensures r.Ok? <==> |value| <= 255
    ensures r.Ok? ==> |r.value| == 1 + |Utf8(value)| && r.value[0] == |value|
    ensures r.Ok? ==> r.value[1..] == Utf8(value)
    ensures r.Ok? ==> (|r.value| == 1 + |value| <==> IsAscii(value))
    ensures r.Err? ==> r.error == Overflow
  {
    match ToBytes(|value|, 1)
    case Err(e) =>
      Pow256Values();
      Err(e)
    case Ok(length) =>
      Pow256Values();
      Utf8Length(value);
      assert length == [|value|] by { OneByte(|value|); }
      Ok(length + Utf8(value))
  }

  lemma OneByte(n: nat)
    requires n < 256
    ensures ToBytes(n, 1) == Ok([n])
  {
    Pow256Values();
    assert BigEndian(n, 1) == BigEndian(n / 256, 0) + [n % 256];
  }

  /** Reads a Pascal string: the prefix byte, then that many bytes; returns
      the string's bytes and what follows them. */
  function ReadPascal(b: Bytes): (r: Option<(Bytes, Bytes)>)
    ensures r.Some? <==> |b| >= 1 && |b| >= 1 + b[0] as int
    ensures r.Some? ==> |r.value.0| == b[0] && r.value.0 + r.value.1 == b[1..]
  {
    if |b| == 0 then None
    else
      var n: int := b[0];
      if |b| < 1 + n then None
      else
        assert b[1..1 + n] + b[1 + n..] == b[1..];
        Some((b[1..1 + n], b[1 + n..]))
  }

  /** Reading back a Pascal string yields exactly the encoded text, with the
      bytes after it untouched, if and only if the text is ASCII: otherwise
      the character count in the prefix is smaller than the byte count. */
  lemma PascalRoundTrip(value: string, rest: Bytes)
    requires |value| <= 255
    ensures PascalString(value).Ok?
    ensures ReadPascal(PascalString(value).value + rest) == Some((Utf8(value), rest)) <==> IsAscii(value)
  {
    var p := PascalString(value).value;
    var b := p + rest;
    Utf8Length(value);
    var n: int := b[0];
    assert n == |value|;
    if IsAscii(value) {
      assert b[1..1 + n] == Utf8(value);
      assert b[1 + n..] == rest;
    } else {
      assert |Utf8(value)| > n;
    }
  }
}
